=== FILE: README.md ===
# Dynamic form: a Dafny model of the form controller

The dynamic-form page shows one of three forms: "User Information", "Address
Information" or "Payment Information". Each form is laid out from a fixed schema. The
page re-checks the changed field on every change and counts the filled required
fields for the progress bar. It keeps the submitted entries in a list, and each entry
can be edited or deleted. This project models that logic in `DynamicForm`
(`app/page.tsx`) as pure functions over immutable values, and proves properties of them.

- `schema.dfy` (module `Schema`): the registry `formConfigs`. It holds the field record
  (name, kind, caption, required flag, and the choices for a dropdown) and the three
  shipped schemas.
- `validation.dfy` (module `Validation`):
  - `validateField`, the per-field check run on every change.
  - The whole-form check that `handleSubmit` runs first.
  - The two counts behind `updateProgress`.
- `store.dfy` (module `Store`): the positional filter `filter((_, i) => i !== index)`
  that both delete and edit use.
- `controller.dfy` (module `Controller`):
  - The page state as one record: `selectedForm`, `fields`, `formData`, `submitted`,
    `errors`, `progress` and the notification.
  - One transition per handler, and the effect that reloads the schema when
    `selectedForm` changes.
  - `Dispatch` runs a handler and then, only if the handler changed `selectedForm`,
    the effect. `Run` runs a list of events.
  - The reachability invariant `Inv`.
- `scenarios.dfy` (module `Scenarios`): concrete runs from mounting the page, written
  as literal states.
- `outcomes.dfy` (module `Outcomes`): `Option` and `Result`.

A value counts as empty exactly when JavaScript's `!value` holds for it. That means the
key is absent or maps to `""`. Progress is kept as the pair (completed, total), or as
`Cleared` for the literal `0` that a reset stores. `Percent` turns it into the number
the bar shows, and `None` stands for the `NaN` that `0 / 0` gives.

The page's handlers behave as follows at their edges, and the model does the same:

- A successful submit does not touch the error map. Every shown error belongs to an
  empty required field after mounting (`MountSatisfiesInv`) and after each event
  (`DispatchKeepsErrorsSound`), except an edit that stays on the same form type. From such a state an
  accepted submit shows no error (`SubmitKeepsErrorsSound`). After such an edit a stale
  message can stay on screen (`EditKeepsStaleError`).
- An unknown form type makes the selection effect throw, because it reads `config.fields`
  of `undefined`. The model returns `Err(UnknownFormType)`. The page does not reject the
  selection beforehand.
- Delete at a position the list does not have changes nothing, and the
  "Entry deleted successfully" banner is still shown.
- Edit at a position the list does not have throws, because `data.formType` is read
  from `undefined`. The model returns `Err(IndexOutOfRange)` and changes nothing.

## Model

| member | source | states |
|---|---|---|
| Schema.Lookup | app/page.tsx:107 | a form type is found exactly when the selector lists it, and then the registry's schema for that very type is returned; every schema found is non-empty and has a required field |
| Schema.ShippedSchemasWellFormed | app/page.tsx:19-64 | in each of the three shipped schemas the field names are pairwise distinct and at least one field is required; the registry's keys are exactly the selector's form types |
| Validation.FindField | app/page.tsx:127 | `find` yields the position of the first field with the given name, and yields nothing exactly when no field has that name |
| Validation.ValidateField | app/page.tsx:126-137 | the error of `name` is present iff the first field of that name is required and the value is empty, and then its message is "<caption> is required"; every other error key keeps its presence and message |
| Validation.ValidateAll | app/page.tsx:149-154 | the error map built at submit has a key exactly for each required field whose value is empty |
| Validation.ValidateAllMessages | app/page.tsx:150-153 | in a schema with distinct names, each empty required field's entry carries the message built from that field's own caption |
| Validation.ValidateAllEmptyIff | app/page.tsx:149-155 | the submit-time error map is empty iff every required field is filled, so submit is accepted exactly then |
| Validation.RequiredCount | app/page.tsx:140 | the count equals the number of positions in the schema that hold a required field, and is positive iff the schema has one |
| Validation.CompletedCount | app/page.tsx:141-143 | the count equals the number of positions holding a required field whose value is non-empty; it never exceeds the required count and equals it iff every required field is filled |
| Validation.ProgressOf | app/page.tsx:139-145 | the progress is (filled required positions, required positions), so completed <= total, completed = total iff all required fields are filled, and total = 0 iff the schema has no required field |
| Validation.Percent | app/page.tsx:144 | for any counts the page can produce (completed <= total): the bar value is 0 after a reset, NaN exactly when there is no required field, otherwise the value v with v * total = 100 * completed, within [0, 100], and 100 exactly when completed = total |
| Validation.ProgressPercent | app/page.tsx:139-145 | for a schema with a required field the bar shows (filled required positions / required positions) * 100, the two counts taken over the same schema |
| Validation.ShippedProgressInRange | app/page.tsx:139-145 | for every shipped schema and every buffer the bar is a number in [0, 100], and it is 100 iff every required field is filled |
| Validation.CompletedPlusErrorsIsRequired | app/page.tsx:139-154 | with distinct names, completed count plus the number of submit-time errors equals the number of required fields |
| Store.DropIndexRemovesOne | app/page.tsx:183 | the index filter removes exactly the entry at an in-range position, keeping the rest in order, and is the identity for any other index, negative ones included |
| Store.DropIndexPositions | app/page.tsx:183 | after an in-range removal the list is one shorter, entries before the index keep their positions and later ones move down by one |
| Store.DropIndexMultiset | app/page.tsx:183 | an in-range removal loses exactly one copy of the removed entry and nothing else |
| Controller.SelectionEffect | app/page.tsx:104-114 | a change of form type loads that type's schema and clears the buffer, the errors and the progress; an unregistered form type throws |
| Controller.Mount | app/page.tsx:93-114 | mounting the page always succeeds and yields exactly the "User Information" form with its schema, an empty buffer, list and error map, progress 0 and no banner |
| Controller.ChangeField | app/page.tsx:116-124 | an input stores its value; the field's error is present iff the first field of that name is required and the value is empty, with message "<caption> is required"; every other error keeps its presence and message; progress becomes (filled required positions, required positions) over the updated buffer, so completed <= total, equal iff all required fields are filled |
| Controller.Submit | app/page.tsx:147-173 | with a required field empty: nothing stored, buffer and progress kept, errors replaced by the submit-time check's map, whose keys are exactly the empty required fields and, with distinct names, each carrying "<caption> is required"; error banner. Otherwise: exactly one entry appended at the end, holding every buffer value plus `formType` = selected type, earlier entries unchanged, buffer emptied, progress reset, errors kept, success banner |
| Controller.Edit | app/page.tsx:175-179 | edit of an in-range entry removes exactly that entry, selects its form type and loads the entry into the buffer, touching neither errors nor progress; an out-of-range index throws |
| Controller.Delete | app/page.tsx:182-185 | delete removes exactly the in-range entry, keeps the list for any other index, shows the deletion banner, and changes nothing else |
| Controller.Dispatch | app/page.tsx:104-114 | whenever an event changes the selected form type, the result shows that type's schema with empty buffer, errors and progress |
| Controller.NoShippedFieldNamedTag | app/page.tsx:165 | no shipped field is named `formType`, so the tag added at submit never hides a field value |
| Controller.MountSatisfiesInv | app/page.tsx:93-114 | the mounted page satisfies the invariant and every error it shows is justified |
| Controller.SubmitPreservesInv | app/page.tsx:147-168 | submit on a reachable state, accepted or refused, leaves a reachable state: an accepted one appends an entry tagged with the selected form type that fills its required fields |
| Controller.DispatchPreservesInv | app/page.tsx:147-185 | every event the page can produce succeeds on a reachable state and keeps the invariant: the selected form type is a registry key, the fields are its schema, and each stored entry is tagged with a registered form type and fills that type's required fields |
| Controller.RunPreservesInv | app/page.tsx:104-185 | from a reachable state, any sequence of producible events never throws and ends in a reachable state |
| Controller.EditThenSubmitRestores | app/page.tsx:163-179 | editing an entry of the selected form type and submitting it unchanged puts the very same entry back, at the end of the list |
| Controller.EditOtherFormTypeDiscards | app/page.tsx:175-179 | editing an entry of another form type removes it from the list, and the selection effect then empties the buffer it was loaded into, so the entry is lost |
| Controller.ChooseFormResets | app/page.tsx:104-114 | choosing the current form type changes nothing; choosing another one reloads its schema and clears buffer, errors and progress |
| Controller.ChangeFieldKeepsErrorsSound | app/page.tsx:116-137 | the per-field check never leaves an error on a field that is filled, if none was there before |
| Controller.SubmitKeepsErrorsSound | app/page.tsx:147-168 | submit keeps every shown error justified, and an accepted submit from such a state shows no error |
| Controller.DispatchKeepsErrorsSound | app/page.tsx:104-185 | every event keeps every shown error on an empty required field, except an edit that stays on the same form type |
| Scenarios.FillAndSubmitUserInformation | app/page.tsx:116-168 | after first and last name are typed (age left empty) the bar shows 100, and submit stores `{firstName: "Ada", lastName: "Lovelace", formType: "User Information"}` and empties the buffer |
| Scenarios.SubmitWithoutFirstName | app/page.tsx:147-162 | submitting with only the last name refuses with the single error "First Name is required" and keeps the list and the buffer |
| Scenarios.ClearedReachable | app/page.tsx:116-173 | the page reaches, from mounting, the state where one entry is stored and the first name was typed and cleared again |
| Scenarios.EditKeepsStaleError | app/page.tsx:175-179 | from that state, editing the stored entry shows "First Name is required" next to a first name that is filled, although every error was justified before |

## Left out

- Rendering (JSX, CSS, the background image) and the field renderer (app/page.tsx:187-324) are left out. Only the kind of each field and the dropdown choices are kept as data.
- The notification's 3000 ms timer (app/page.tsx:66-90) is left out. The banner is modelled as a `notice` field, and the timer firing is the `DismissNotice` event.
- React's batching and effect scheduling are abstracted: each handler is one atomic step, and the selection effect is a second step after it, run only when `selectedForm` changed.
- Progress is kept as exact counts. `Percent` computes a real quotient, not a floating-point one.
- Values are strings only. The page's `any`-typed buffer holds nothing else, because inputs and entries carry text.
- Controller.Edit: an entry without a `formType` key yields `Err(MissingFormType)`. The page would instead select `undefined` and throw in the effect afterwards. Such an entry is unreachable (see `DispatchPreservesInv`).
- Validation.ValidateAll: the message in each entry is stated only for schemas with distinct field names (in `ValidateAllMessages`). With duplicate names the later field's message wins, and no shipped schema has duplicates.
- app/components/navbar.tsx and app/components/footer.tsx are not part of this model. They hold only a menu toggle, links and the current year.

=== FILE: controller.dfy ===
/**
 The form controller: the page state as one immutable record, each event
 handler as a pure transition, and the effect that reloads the schema
 whenever the selected form type changes.

 A handler and the effect it may trigger are two steps: `Dispatch` runs
 the handler and then, only if the handler changed `selectedForm`, the
 effect. The effect therefore overwrites what the handler put into the
 editing buffer, as it does on the page.
 */
module Controller {
  import opened Outcomes
  import opened Schema
  import opened Validation
  import opened Store

  /** The key under which a stored entry records its form type. */
  const FormTypeKey: string := "formType"

  const FillRequiredMessage: string := "Please fill in all required fields"
  const SubmittedMessage: string := "Form submitted successfully!"
  const DeletedMessage: string := "Entry deleted successfully"

  datatype NoticeKind = Success | Error

  /** The transient banner shown after submit and delete. */
  datatype Notice = Notice(message: string, kind: NoticeKind)

  /** What makes an operation throw on the page. */
  datatype FormError =
    | UnknownFormType(formType: string)  // the registry has no such form type
    | IndexOutOfRange(index: int)        // edit of a position the list does not have
    | MissingFormType(index: int)        // edit of an entry carrying no form-type tag

  datatype State = State(
    selectedForm: string,
    fields: seq<Field>,
    formData: Values,
    submitted: seq<Values>,
    errors: map<string, string>,
    progress: Progress,
    notice: Option<Notice>)

  /** The user's actions; `DismissNotice` stands for the banner's timer firing. */
  datatype Event =
    | ChooseForm(formType: string)
    | Input(name: string, value: string)
    | SubmitForm
    | EditEntry(index: int)
    | DeleteEntry(index: int)
    | DismissNotice

  /** The state before the first effect has run. */
  function Initial(): State {
    State(UserInformation, [], map[], [], map[], Cleared, None)
  }

  /**
   The effect run when `selectedForm` changes: load that form type's
   fields and clear the buffer, the errors and the progress. An unknown
   form type makes the page throw.
   */
  function SelectionEffect(s: State): (r: Result<State, FormError>)
    ensures r.Err? <==> s.selectedForm !in FormTypes
    ensures r.Err? ==> r.error == UnknownFormType(s.selectedForm)
    ensures r.Ok? ==>
      && r.value.fields == Configs[s.selectedForm]
      && r.value.formData == map[] && r.value.errors == map[] && r.value.progress == Cleared
      && r.value.selectedForm == s.selectedForm && r.value.submitted == s.submitted
      && r.value.notice == s.notice
  {
    match Lookup(s.selectedForm)
    case None => Err(UnknownFormType(s.selectedForm))
    case Some(fields) => Ok(s.(fields := fields, formData := map[], errors := map[], progress := Cleared))
  }

  /** The page as it stands after the first render and its effect. */
  function Mount(): (r: Result<State, FormError>)
    ensures r.Ok? && r.value.fields == UserFields && r.value.submitted == []
    ensures r == Ok(State(UserInformation, UserFields, map[], [], map[], Cleared, None))
  {
    SelectionEffect(Initial())
  }

  /**
   A keystroke or choice in the input `name`: store the value, re-check
   that one field and recompute the progress over the updated buffer.
   */
  function ChangeField(s: State, name: string, value: string): (r: State)
    ensures r.formData == s.formData[name := value]
    ensures forall k :: k != name ==> (k in r.errors <==> k in s.errors)
    ensures forall k :: k != name && k in r.errors ==> r.errors[k] == s.errors[k]
    ensures name in r.errors <==> value == "" && exists i :: FirstNamed(s.fields, name, i) && s.fields[i].required
    ensures forall i :: FirstNamed(s.fields, name, i) && name in r.errors ==> r.errors[name] == RequiredMessage(s.fields[i].caption)
    ensures r.progress == Counts(|FilledPositions(s.fields, r.formData)|, |RequiredPositions(s.fields)|)
    ensures r.progress.Counts? && r.progress.completed <= r.progress.total
    ensures r.progress.completed == r.progress.total <==> AllRequiredFilled(s.fields, r.formData)
    ensures r.selectedForm == s.selectedForm && r.fields == s.fields
    ensures r.submitted == s.submitted && r.notice == s.notice
  {
    var data := s.formData[name := value];
    s.(formData := data,
       errors := ValidateField(s.fields, s.errors, name, value),
       progress := ProgressOf(s.fields, data))
  }

  /**
   Submit: re-check every field. If a required field is empty, show its
   error and keep everything else; otherwise store the buffer tagged with
   the form type at the end of the list and clear the buffer and progress.
   The error map is left as it was on success.
   */
  function Submit(s: State): (r: State)
    ensures !AllRequiredFilled(s.fields, s.formData) ==>
      && r.submitted == s.submitted && r.formData == s.formData && r.progress == s.progress
      && r.errors == ValidateAll(s.fields, s.formData)
      && r.errors.Keys == MissingNames(s.fields, s.formData)
      && (DistinctNames(s.fields) ==> forall i :: 0 <= i < |s.fields| && Missing(s.fields[i], s.formData) ==>
            r.errors[s.fields[i].name] == RequiredMessage(s.fields[i].caption))
      && r.notice == Some(Notice(FillRequiredMessage, Error))
    ensures AllRequiredFilled(s.fields, s.formData) ==>
      && |r.submitted| == |s.submitted| + 1
      && r.submitted[..|s.submitted|] == s.submitted
      && r.submitted[|s.submitted|].Keys == s.formData.Keys + {FormTypeKey}
      && r.submitted[|s.submitted|][FormTypeKey] == s.selectedForm
      && (forall k :: k in s.formData && k != FormTypeKey ==> r.submitted[|s.submitted|][k] == s.formData[k])
      && r.formData == map[] && r.progress == Cleared && r.errors == s.errors
      && r.notice == Some(Notice(SubmittedMessage, Success))
    ensures r.selectedForm == s.selectedForm && r.fields == s.fields
  {
    var found := ValidateAll(s.fields, s.formData);
    ValidateAllEmptyIff(s.fields, s.formData);
    assert DistinctNames(s.fields) ==> forall i :: 0 <= i < |s.fields| && Missing(s.fields[i], s.formData) ==>
      s.fields[i].name in found && found[s.fields[i].name] == RequiredMessage(s.fields[i].caption) by {
      if DistinctNames(s.fields) {
        forall i | 0 <= i < |s.fields| && Missing(s.fields[i], s.formData)
          ensures s.fields[i].name in found && found[s.fields[i].name] == RequiredMessage(s.fields[i].caption)
        {
          ValidateAllMessages(s.fields, s.formData, i);
        }
      }
    }
    if found != map[] then
      s.(errors := found, notice := Some(Notice(FillRequiredMessage, Error)))
    else
      s.(submitted := s.submitted + [s.formData[FormTypeKey := s.selectedForm]],
         formData := map[],
         progress := Cleared,
         notice := Some(Notice(SubmittedMessage, Success)))
  }

  /**
   Edit: take the entry at `index` out of the list, select its form type
   and load it into the buffer. Errors and progress are not touched. A
   position the list does not have makes the page throw.
   */
  function Edit(s: State, index: int): (r: Result<State, FormError>)
    ensures !(0 <= index < |s.submitted|) ==> r == Err(IndexOutOfRange(index))
    ensures 0 <= index < |s.submitted| && FormTypeKey !in s.submitted[index] ==> r == Err(MissingFormType(index))
    ensures 0 <= index < |s.submitted| && FormTypeKey in s.submitted[index] ==>
      && r.Ok?
      && r.value.selectedForm == s.submitted[index][FormTypeKey]
      && r.value.formData == s.submitted[index]
      && r.value.submitted == s.submitted[..index] + s.submitted[index + 1..]
      && r.value.fields == s.fields && r.value.errors == s.errors
      && r.value.progress == s.progress && r.value.notice == s.notice
  {
    if !(0 <= index < |s.submitted|) then Err(IndexOutOfRange(index))
    else
      var entry := s.submitted[index];
      if FormTypeKey !in entry then Err(MissingFormType(index))
      else
        DropIndexRemovesOne(s.submitted, index);
        Ok(s.(selectedForm := entry[FormTypeKey], formData := entry, submitted := DropIndex(s.submitted, index)))
  }

  /** Delete: drop the entry at `index` (nothing, for a position the list
      does not have) and show the confirmation either way. */
  function Delete(s: State, index: int): (r: State)
    ensures 0 <= index < |s.submitted| ==> r.submitted == s.submitted[..index] + s.submitted[index + 1..]
    ensures !(0 <= index < |s.submitted|) ==> r.submitted == s.submitted
    ensures r.notice == Some(Notice(DeletedMessage, Success))
    ensures r.(submitted := s.submitted, notice := s.notice) == s
  {
    DropIndexRemovesOne(s.submitted, index);
    s.(submitted := DropIndex(s.submitted, index), notice := Some(Notice(DeletedMessage, Success)))
  }

  /** Run the effect when a handler changed the selected form type. */
  function Settle(before: State, after: State): Result<State, FormError> {
    if after.selectedForm != before.selectedForm then SelectionEffect(after) else Ok(after)
  }

  /** One event: its handler, then the selection effect if it is due. */
  function Dispatch(s: State, ev: Event): (r: Result<State, FormError>)
    ensures r.Ok? && r.value.selectedForm != s.selectedForm ==>
      && r.value.selectedForm in Configs
      && r.value.fields == Configs[r.value.selectedForm]
      && r.value.formData == map[] && r.value.errors == map[] && r.value.progress == Cleared
  {
    match ev
    case ChooseForm(t) => Settle(s, s.(selectedForm := t))
    case Input(name, value) => Ok(ChangeField(s, name, value))
    case SubmitForm => Ok(Submit(s))
    case EditEntry(i) =>
      (match Edit(s, i)
       case Err(e) => Err(e)
       case Ok(s') => Settle(s, s'))
    case DeleteEntry(i) => Ok(Delete(s, i))
    case DismissNotice => Ok(s.(notice := None))
  }

  /** A sequence of events, stopping at the first one that throws. */
  function Run(s: State, evs: seq<Event>): Result<State, FormError>
    decreases |evs|
  {
    if |evs| == 0 then Ok(s)
    else match Dispatch(s, evs[0])
      case Err(e) => Err(e)
      case Ok(s') => Run(s', evs[1..])
  }

  /** Events the page can actually produce: the selector offers only the
      registry's form types, and an edit button exists only for a stored entry. */
  predicate Enabled(s: State, ev: Event) {
    match ev
    case ChooseForm(t) => t in FormTypes
    case EditEntry(i) => 0 <= i < |s.submitted|
    case _ => true
  }

  /** Every event of the sequence is enabled in the state it meets. */
  predicate AllEnabled(s: State, evs: seq<Event>)
    decreases |evs|
  {
    |evs| == 0 ||
    (Enabled(s, evs[0]) && match Dispatch(s, evs[0])
      case Err(_) => true
      case Ok(s') => AllEnabled(s', evs[1..]))
  }

  /** A stored entry is tagged with a registered form type and fills that type's required fields. */
  predicate EntryValid(e: Values) {
    FormTypeKey in e && e[FormTypeKey] in Configs && AllRequiredFilled(Configs[e[FormTypeKey]], e)
  }

  /** What holds of every state the page reaches. */
  predicate Inv(s: State) {
    && s.selectedForm in Configs
    && s.fields == Configs[s.selectedForm]
    && forall k :: 0 <= k < |s.submitted| ==> EntryValid(s.submitted[k])
  }

  /** No shipped field is called like the tag key, so tagging never hides a field's value. */
  lemma NoShippedFieldNamedTag()
    ensures forall t :: t in Configs ==> NoFieldNamed(Configs[t], FormTypeKey)
  {
  }

  /** The mounted page is reachable and shows no error. */
  lemma MountSatisfiesInv()
    ensures Mount().Ok? && Inv(Mount().value)
    ensures ErrorsSound(Mount().value)
  {
  }

  /** Tagging a complete buffer keeps it complete when no field is named like the tag. */
  lemma TagKeepsComplete(fields: seq<Field>, data: Values, v: string)
    requires AllRequiredFilled(fields, data)
    requires NoFieldNamed(fields, FormTypeKey)
    ensures AllRequiredFilled(fields, data[FormTypeKey := v])
  {
    forall i | 0 <= i < |fields|
      ensures !Missing(fields[i], data[FormTypeKey := v])
    {
      assert fields[i].name != FormTypeKey;
    }
  }

  /** An accepted submit appends a complete, tagged snapshot. */
  lemma SubmitPreservesInv(s: State)
    requires Inv(s)
    ensures Inv(Submit(s))
  {
    if AllRequiredFilled(s.fields, s.formData) {
      NoShippedFieldNamedTag();
      TagKeepsComplete(s.fields, s.formData, s.selectedForm);
      var r := Submit(s);
      var e := s.formData[FormTypeKey := s.selectedForm];
      assert r.submitted == s.submitted + [e];
      assert EntryValid(e);
    }
  }

  /** The index filter keeps only entries that were already stored. */
  lemma DropIndexKeepsValid(entries: seq<Values>, i: int)
    requires forall k :: 0 <= k < |entries| ==> EntryValid(entries[k])
    ensures forall k :: 0 <= k < |DropIndex(entries, i)| ==> EntryValid(DropIndex(entries, i)[k])
  {
    DropIndexSubset(entries, i);
    var r := DropIndex(entries, i);
    forall k | 0 <= k < |r|
      ensures EntryValid(r[k])
    {
      var j :| 0 <= j < |entries| && entries[j] == r[k];
    }
  }

  /**
   Every enabled event succeeds on a reachable state and leads to another
   one: the selected form type stays a registry key, the fields are its
   schema, and every stored entry stays a complete, tagged snapshot.
   */
  lemma DispatchPreservesInv(s: State, ev: Event)
    requires Inv(s) && Enabled(s, ev)
    ensures Dispatch(s, ev).Ok? && Inv(Dispatch(s, ev).value)
  {
    match ev
    case SubmitForm => SubmitPreservesInv(s);
    case EditEntry(i) =>
      ShippedSchemasWellFormed();
      DropIndexKeepsValid(s.submitted, i);
      assert EntryValid(s.submitted[i]);
      assert Edit(s, i).value.submitted == DropIndex(s.submitted, i);
    case DeleteEntry(i) =>
      DropIndexKeepsValid(s.submitted, i);
      assert Delete(s, i).submitted == DropIndex(s.submitted, i);
    case ChooseForm(t) => ShippedSchemasWellFormed();
    case Input(name, value) =>
    case DismissNotice =>
  }

  /** From a reachable state, a run of enabled events never throws and ends in a reachable state. */
  lemma {:induction false} RunPreservesInv(s: State, evs: seq<Event>)
    requires Inv(s) && AllEnabled(s, evs)
    ensures Run(s, evs).Ok? && Inv(Run(s, evs).value)
    decreases |evs|
  {
    if |evs| > 0 {
      DispatchPreservesInv(s, evs[0]);
      RunPreservesInv(Dispatch(s, evs[0]).value, evs[1..]);
    }
  }

  /**
   Editing an entry of the form type already selected and submitting it
   again unchanged puts the very same entry back, now at the end of the list.
   */
  lemma EditThenSubmitRestores(s: State, i: int)
    requires Inv(s) && 0 <= i < |s.submitted|
    requires s.submitted[i][FormTypeKey] == s.selectedForm
    ensures Dispatch(s, EditEntry(i)).Ok?
    ensures Dispatch(Dispatch(s, EditEntry(i)).value, SubmitForm).Ok?
    ensures Dispatch(Dispatch(s, EditEntry(i)).value, SubmitForm).value.submitted
            == s.submitted[..i] + s.submitted[i + 1..] + [s.submitted[i]]
  {
    var e := s.submitted[i];
    assert EntryValid(e);
    var s1 := Dispatch(s, EditEntry(i)).value;
    assert s1.formData == e && s1.fields == s.fields;
    assert e[FormTypeKey := s1.selectedForm] == e;
  }

  /**
   Editing an entry of another form type loses it: the entry leaves the
   list, and the selection effect then empties the buffer it was loaded into.
   */
  lemma EditOtherFormTypeDiscards(s: State, i: int)
    requires Inv(s) && 0 <= i < |s.submitted|
    requires s.submitted[i][FormTypeKey] != s.selectedForm
    ensures Dispatch(s, EditEntry(i)).Ok?
    ensures Dispatch(s, EditEntry(i)).value.selectedForm == s.submitted[i][FormTypeKey]
    ensures Dispatch(s, EditEntry(i)).value.formData == map[]
    ensures Dispatch(s, EditEntry(i)).value.submitted == s.submitted[..i] + s.submitted[i + 1..]
  {
    assert EntryValid(s.submitted[i]);
    ShippedSchemasWellFormed();
  }

  /** Choosing a form type reloads and clears exactly when it differs from the current one. */
  lemma ChooseFormResets(s: State, t: string)
    requires Inv(s) && t in FormTypes
    ensures Dispatch(s, ChooseForm(t)).Ok?
    ensures t == s.selectedForm ==> Dispatch(s, ChooseForm(t)).value == s
    ensures t != s.selectedForm ==>
      Dispatch(s, ChooseForm(t)).value
      == s.(selectedForm := t, fields := Configs[t], formData := map[], errors := map[], progress := Cleared)
  {
  }

  /** Every error shown belongs to a required field that is empty right now. */
  predicate ErrorsSound(s: State) {
    forall k :: k in s.errors ==> k in MissingNames(s.fields, s.formData)
  }

  /** The per-field check never leaves an error on a field that is filled. */
  lemma ChangeFieldKeepsErrorsSound(s: State, name: string, value: string)
    requires ErrorsSound(s)
    ensures ErrorsSound(ChangeField(s, name, value))
  {
    var r := ChangeField(s, name, value);
    forall k | k in r.errors
      ensures k in MissingNames(r.fields, r.formData)
    {
      if k == name {
        var i :| FirstNamed(s.fields, name, i) && s.fields[i].required;
        assert Missing(r.fields[i], r.formData);
      } else {
        assert k in MissingNames(s.fields, s.formData);
        var i :| 0 <= i < |s.fields| && Missing(s.fields[i], s.formData) && s.fields[i].name == k;
        assert Missing(r.fields[i], r.formData);
      }
    }
  }

  /** Submitting, accepted or not, keeps every shown error justified; an
      accepted submit then shows no error at all. */
  lemma SubmitKeepsErrorsSound(s: State)
    requires ErrorsSound(s)
    ensures ErrorsSound(Submit(s))
    ensures AllRequiredFilled(s.fields, s.formData) ==> Submit(s).errors == map[]
  {
    if AllRequiredFilled(s.fields, s.formData) {
      assert MissingNames(s.fields, s.formData) == {};
    }
  }

  /**
   Each event keeps every shown error justified, except an edit that
   stays on the same form type: that one loads new values but keeps the
   old messages (see the scenario `EditKeepsStaleError`).
   */
  lemma DispatchKeepsErrorsSound(s: State, ev: Event)
    requires ErrorsSound(s) && Dispatch(s, ev).Ok?
    ensures !(ev.EditEntry? && Dispatch(s, ev).value.selectedForm == s.selectedForm) ==> ErrorsSound(Dispatch(s, ev).value)
  {
    var r := Dispatch(s, ev).value;
    match ev
    case Input(name, value) => ChangeFieldKeepsErrorsSound(s, name, value);
    case SubmitForm => SubmitKeepsErrorsSound(s);
    case _ =>
      if r.selectedForm != s.selectedForm {
        assert r.errors == map[];
      }
  }
}

=== FILE: outcomes.dfy ===
/** Failure-carrying wrappers shared by the form model. */
module Outcomes {

  /** A value that may be absent: `undefined` in the form page. */
  datatype Option<+T> = None | Some(value: T)

  /** Either the new value or the error that stopped the operation. */
  datatype Result<+T, +E> = Ok(value: T) | Err(error: E)
}

=== FILE: scenarios.dfy ===
/**
 Concrete runs of the form page, from mounting onwards, written as the
 literal state after each event and one lemma per step.
 */
module Scenarios {
  import opened Outcomes
  import opened Schema
  import opened Validation
  import opened Controller

  const FirstNameMessage: string := "First Name is required"

  /** The entry stored for Ada Lovelace. */
  const AdaEntry: Values := map["firstName" := "Ada", "lastName" := "Lovelace", FormTypeKey := UserInformation]

  const Mounted: State := State(UserInformation, UserFields, map[], [], map[], Cleared, None)

  /** After typing the first name. */
  const FirstTyped: State :=
    State(UserInformation, UserFields, map["firstName" := "Ada"], [], map[], Counts(1, 2), None)

  /** After typing the last name too. */
  const BothTyped: State :=
    State(UserInformation, UserFields, map["firstName" := "Ada", "lastName" := "Lovelace"], [], map[], Counts(2, 2), None)

  /** After the accepted submit. */
  const AdaStored: State :=
    State(UserInformation, UserFields, map[], [AdaEntry], map[], Cleared, Some(Notice(SubmittedMessage, Success)))

  /** After typing a first name into the cleared form ... */
  const Retyped: State :=
    State(UserInformation, UserFields, map["firstName" := "x"], [AdaEntry], map[], Counts(1, 2),
          Some(Notice(SubmittedMessage, Success)))

  /** ... and clearing it again, which shows the first name's error. */
  const FirstCleared: State :=
    State(UserInformation, UserFields, map["firstName" := ""], [AdaEntry], map["firstName" := FirstNameMessage],
          Counts(0, 2), Some(Notice(SubmittedMessage, Success)))

  /** On the "User Information" form the bar counts the two names out of two. */
  lemma UserProgress(data: Values)
    ensures ProgressOf(UserFields, data)
         == Counts((if Filled(data, "firstName") then 1 else 0) + (if Filled(data, "lastName") then 1 else 0), 2)
  {
    var two, one := UserFields[..2], UserFields[..2][..1];
    assert one[..0] == [];
    assert one[0] == UserFields[0] && two[1] == UserFields[1];
    assert CompletedCount(one, data) == (if Filled(data, "firstName") then 1 else 0);
    assert CompletedCount(two, data) == CompletedCount(one, data) + (if Filled(data, "lastName") then 1 else 0);
    assert CompletedCount(UserFields, data) == CompletedCount(two, data);
    assert RequiredCount(one) == 1;
    assert RequiredCount(two) == 2;
    assert RequiredCount(UserFields) == 2;
  }

  lemma MountStep()
    ensures Mount() == Ok(Mounted)
  {
  }

  lemma FirstNameStep()
    ensures Dispatch(Mounted, Input("firstName", "Ada")) == Ok(FirstTyped)
  {
    var r := ChangeField(Mounted, "firstName", "Ada");
    assert r.errors == map[];
    assert r.formData == map["firstName" := "Ada"];
    UserProgress(r.formData);
    assert r.progress == Counts(1, 2);
  }

  lemma LastNameStep()
    ensures Dispatch(FirstTyped, Input("lastName", "Lovelace")) == Ok(BothTyped)
  {
    var r := ChangeField(FirstTyped, "lastName", "Lovelace");
    assert r.errors == map[];
    assert r.formData == map["firstName" := "Ada", "lastName" := "Lovelace"];
    UserProgress(r.formData);
    assert r.progress == Counts(2, 2);
  }

  lemma SubmitStep()
    ensures Dispatch(BothTyped, SubmitForm) == Ok(AdaStored)
  {
    assert AllRequiredFilled(UserFields, BothTyped.formData);
    var r := Submit(BothTyped);
    assert r.submitted == [BothTyped.formData[FormTypeKey := UserInformation]];
    assert BothTyped.formData[FormTypeKey := UserInformation] == AdaEntry;
  }

  lemma RetypeStep()
    ensures Dispatch(AdaStored, Input("firstName", "x")) == Ok(Retyped)
  {
    var r := ChangeField(AdaStored, "firstName", "x");
    assert r.errors == map[];
    assert r.formData == map["firstName" := "x"];
    UserProgress(r.formData);
    assert r.progress == Counts(1, 2);
  }

  lemma ClearStep()
    ensures Dispatch(Retyped, Input("firstName", "")) == Ok(FirstCleared)
  {
    var r := ChangeField(Retyped, "firstName", "");
    assert FindField(UserFields, "firstName") == Some(0);
    assert RequiredMessage(UserFields[0].caption) == FirstNameMessage;
    assert r.errors == map["firstName" := FirstNameMessage];
    assert r.formData == map["firstName" := ""];
    UserProgress(r.formData);
    assert r.progress == Counts(0, 2);
  }

  /** A run that starts with an event which succeeds continues from its result. */
  lemma RunFirst(s: State, evs: seq<Event>, next: State)
    requires |evs| > 0 && Dispatch(s, evs[0]) == Ok(next)
    ensures Run(s, evs) == Run(next, evs[1..])
  {
  }

  /**
   Filling both required fields of "User Information" and leaving the
   optional age empty brings the bar to 100, and the submit stores one
   entry tagged with the form type and empties the buffer.
   */
  lemma FillAndSubmitUserInformation()
    ensures Run(Mounted, [Input("firstName", "Ada"), Input("lastName", "Lovelace")]) == Ok(BothTyped)
    ensures Percent(BothTyped.progress) == Some(100.0)
    ensures Dispatch(BothTyped, SubmitForm) == Ok(AdaStored)
    ensures AdaStored.submitted == [map["firstName" := "Ada", "lastName" := "Lovelace", "formType" := "User Information"]]
    ensures AdaStored.formData == map[]
  {
    var evs := [Input("firstName", "Ada"), Input("lastName", "Lovelace")];
    assert evs[1..][1..] == [];
    FirstNameStep();
    LastNameStep();
    SubmitStep();
    RunFirst(Mounted, evs, FirstTyped);
    RunFirst(FirstTyped, evs[1..], BothTyped);
  }

  /** Only the last name typed ... */
  const LastOnly: State :=
    State(UserInformation, UserFields, map["lastName" := "Lovelace"], [], map[], Counts(1, 2), None)

  /** ... and the submit refused. */
  const Refused: State :=
    State(UserInformation, UserFields, map["lastName" := "Lovelace"], [], map["firstName" := FirstNameMessage],
          Counts(1, 2), Some(Notice(FillRequiredMessage, Error)))

  lemma LastOnlyStep()
    ensures Dispatch(Mounted, Input("lastName", "Lovelace")) == Ok(LastOnly)
  {
    var r := ChangeField(Mounted, "lastName", "Lovelace");
    assert r.errors == map[];
    assert r.formData == map["lastName" := "Lovelace"];
    UserProgress(r.formData);
    assert r.progress == Counts(1, 2);
  }

  /** Submitting with the first name empty is refused with that field's message
      only; the list and the buffer stay as they were. */
  lemma SubmitWithoutFirstName()
    ensures Dispatch(LastOnly, SubmitForm) == Ok(Refused)
    ensures Refused.errors == map["firstName" := "First Name is required"]
    ensures Refused.submitted == LastOnly.submitted && Refused.formData == LastOnly.formData
  {
    var a := LastOnly;
    assert Missing(UserFields[0], a.formData);
    ShippedSchemasWellFormed();
    ValidateAllMessages(UserFields, a.formData, 0);
    assert MissingNames(UserFields, a.formData) == {"firstName"};
    assert RequiredMessage(UserFields[0].caption) == FirstNameMessage;
    assert ValidateAll(UserFields, a.formData) == map["firstName" := FirstNameMessage];
    assert Submit(a) == Refused;
  }

  /** The state with the stale-error setup is what the page reaches from mounting. */
  lemma ClearedReachable()
    ensures Run(Mounted, [Input("firstName", "Ada"), Input("lastName", "Lovelace"), SubmitForm,
                          Input("firstName", "x"), Input("firstName", "")]) == Ok(FirstCleared)
  {
    var evs := [Input("firstName", "Ada"), Input("lastName", "Lovelace"), SubmitForm,
                Input("firstName", "x"), Input("firstName", "")];
    assert evs[1..][1..][1..][1..][1..] == [];
    FirstNameStep();
    LastNameStep();
    SubmitStep();
    RetypeStep();
    ClearStep();
    RunFirst(Mounted, evs, FirstTyped);
    RunFirst(FirstTyped, evs[1..], BothTyped);
    RunFirst(BothTyped, evs[1..][1..], AdaStored);
    RunFirst(AdaStored, evs[1..][1..][1..], Retyped);
    RunFirst(Retyped, evs[1..][1..][1..][1..], FirstCleared);
  }

  /**
   Editing keeps whatever errors were on screen: editing the stored entry
   in the state above leaves "First Name is required" shown next to a
   first name that is filled, although every error was justified before.
   */
  lemma EditKeepsStaleError()
    ensures var r := Dispatch(FirstCleared, EditEntry(0));
      && ErrorsSound(FirstCleared)
      && r.Ok? && Filled(r.value.formData, "firstName") && "firstName" in r.value.errors
      && !ErrorsSound(r.value)
  {
    var s := FirstCleared;
    assert Missing(UserFields[0], s.formData);
    assert "firstName" in MissingNames(s.fields, s.formData);
    var f := Edit(s, 0).value;
    assert Dispatch(s, EditEntry(0)) == Ok(f);
    assert Filled(f.formData, "firstName");
    assert !Missing(UserFields[0], f.formData);
    assert "firstName" !in MissingNames(f.fields, f.formData);
  }
}

=== FILE: schema.dfy ===
/**
 The schema registry: a fixed map from form-type name to the ordered list
 of fields that the form of that type shows.
 */
module Schema {
  import opened Outcomes

  /** How a field is entered; a dropdown carries its choices in display order. */
  datatype Kind = Text | Number | Dropdown(options: seq<string>) | Date | Password

  /** One input of a form; `caption` is the label shown next to it. */
  datatype Field = Field(name: string, kind: Kind, caption: string, required: bool)

  const UserInformation: string := "User Information"
  const AddressInformation: string := "Address Information"
  const PaymentInformation: string := "Payment Information"

  /** The form types in the order the selector offers them (key order of the registry). */
  const FormTypes: seq<string> := [UserInformation, AddressInformation, PaymentInformation]

  const UserFields: seq<Field> := [
    Field("firstName", Text, "First Name", true),
    Field("lastName", Text, "Last Name", true),
    Field("age", Number, "Age", false)
  ]

  const AddressFields: seq<Field> := [
    Field("street", Text, "Street", true),
    Field("city", Text, "City", true),
    Field("state", Dropdown(["California", "Texas", "New York"]), "State", true),
    Field("zipCode", Text, "Zip Code", false)
  ]

  const PaymentFields: seq<Field> := [
    Field("cardNumber", Text, "Card Number", true),
    Field("expiryDate", Date, "Expiry Date", true),
    Field("cvv", Password, "CVV", true),
    Field("cardholderName", Text, "Cardholder Name", true)
  ]

  /** The registry itself. */
  const Configs: map<string, seq<Field>> := map[
    UserInformation := UserFields,
    AddressInformation := AddressFields,
    PaymentInformation := PaymentFields
  ]

  /** No two fields of a schema share a name. */
  predicate DistinctNames(fields: seq<Field>) {
    forall i, j :: 0 <= i < j < |fields| ==> fields[i].name != fields[j].name
  }

  /** Some field of the schema must be filled before the form can be submitted. */
  predicate HasRequired(fields: seq<Field>) {
    exists i :: 0 <= i < |fields| && fields[i].required
  }

  /** No field of the schema is called `key`. */
  predicate NoFieldNamed(fields: seq<Field>, key: string) {
    forall i :: 0 <= i < |fields| ==> fields[i].name != key
  }

  /** Registry lookup: absent for a name the registry does not hold. */
  function Lookup(formType: string): (r: Option<seq<Field>>)
    ensures r.Some? <==> formType in FormTypes
    ensures r.Some? ==> formType in Configs && r.value == Configs[formType]
    ensures r.Some? ==> |r.value| > 0 && HasRequired(r.value)
  {
    ShippedSchemasWellFormed();
    if formType in Configs then Some(Configs[formType]) else None
  }

  /** Every shipped schema has pairwise distinct field names and at least one
      required field, and the selector lists exactly the registry's keys. */
  lemma ShippedSchemasWellFormed()
    ensures forall t :: t in Configs <==> t in FormTypes
    ensures forall t :: t in Configs ==> DistinctNames(Configs[t])
    ensures forall t :: t in Configs ==> HasRequired(Configs[t])
  {
    assert UserFields[0].required;
    assert AddressFields[0].required;
    assert PaymentFields[0].required;
  }
}

=== FILE: store.dfy ===
/**
 The list of submitted entries and the positional removal that both the
 delete and the edit handler perform: a filter that keeps every entry
 whose position differs from the given index.
 */
module Store {

  /** The filter by position that delete and edit apply: visit the positions in order and
      keep each entry whose position is not `index`. */
  function DropIndex<T>(s: seq<T>, index: int): seq<T>
  {
    if |s| == 0 then []
    else DropIndex(s[..|s| - 1], index) + (if |s| - 1 != index then [s[|s| - 1]] else [])
  }

  /**
   Removing an in-range position takes out exactly that entry and keeps
   the others in their relative order; any other index, negative ones
   included, leaves the list as it was.
   */
  lemma {:induction false} DropIndexRemovesOne<T>(s: seq<T>, index: int)
    ensures 0 <= index < |s| ==> DropIndex(s, index) == s[..index] + s[index + 1..]
    ensures !(0 <= index < |s|) ==> DropIndex(s, index) == s
  {
    if |s| > 0 {
      var init := s[..|s| - 1];
      DropIndexRemovesOne(init, index);
      if 0 <= index < |s| - 1 {
        assert s[..index] == init[..index];
        assert s[index + 1..] == init[index + 1..] + [s[|s| - 1]];
      } else if index == |s| - 1 {
        assert s[..index] == init;
      } else {
        assert s == init + [s[|s| - 1]];
      }
    }
  }

  /** Position by position: the entries before `index` stay put and the ones
      after it move down by one. */
  lemma DropIndexPositions<T>(s: seq<T>, index: int)
    requires 0 <= index < |s|
    ensures |DropIndex(s, index)| == |s| - 1
    ensures forall k :: 0 <= k < index ==> DropIndex(s, index)[k] == s[k]
    ensures forall k :: index <= k < |s| - 1 ==> DropIndex(s, index)[k] == s[k + 1]
  {
    DropIndexRemovesOne(s, index);
  }

  /** The removed entry is the only one missing from the multiset. */
  lemma DropIndexMultiset<T>(s: seq<T>, index: int)
    requires 0 <= index < |s|
    ensures multiset(DropIndex(s, index)) + multiset{s[index]} == multiset(s)
  {
    DropIndexRemovesOne(s, index);
    SpliceMultiset(s, index);
  }

  lemma SpliceMultiset<T>(s: seq<T>, index: int)
    requires 0 <= index < |s|
    ensures multiset(s[..index] + s[index + 1..]) + multiset{s[index]} == multiset(s)
  {
    assert s == s[..index] + [s[index]] + s[index + 1..];
  }

  /** Every entry left after a removal was already in the list. */
  lemma DropIndexSubset<T>(s: seq<T>, index: int)
    ensures forall k :: 0 <= k < |DropIndex(s, index)| ==> DropIndex(s, index)[k] in s
  {
    DropIndexRemovesOne(s, index);
    if 0 <= index < |s| {
      DropIndexPositions(s, index);
    }
  }
}

=== FILE: validation.dfy ===
/**
 The validation engine: the per-field required check run on every change,
 the whole-form check run at submit, and the progress counts.

 A value counts as empty exactly when JavaScript's `!value` holds for it:
 the key is absent from the buffer or maps to the empty string.
 */
module Validation {
  import opened Outcomes
  import opened Schema

  /** The editing buffer and a stored entry: field name to entered text. */
  type Values = map<string, string>

  /** The field `name` holds a non-empty value. */
  predicate Filled(data: Values, name: string) {
    name in data && data[name] != ""
  }

  /** The field is required and has no value yet. */
  predicate Missing(f: Field, data: Values) {
    f.required && !Filled(data, f.name)
  }

  /** Every required field of the schema is filled. */
  predicate AllRequiredFilled(fields: seq<Field>, data: Values) {
    forall i :: 0 <= i < |fields| ==> !Missing(fields[i], data)
  }

  /** The names of the required fields that are still empty. */
  function MissingNames(fields: seq<Field>, data: Values): set<string> {
    set i | 0 <= i < |fields| && Missing(fields[i], data) :: fields[i].name
  }

  /** The message shown for an empty required field. */
  function RequiredMessage(caption: string): string {
    caption + " is required"
  }

  /** `i` is the position of the first field called `name`. */
  predicate FirstNamed(fields: seq<Field>, name: string, i: int) {
    0 <= i < |fields| && fields[i].name == name
    && forall j :: 0 <= j < i ==> fields[j].name != name
  }

  /** Position of the first field called `name` (what `Array.find` returns). */
  function FindField(fields: seq<Field>, name: string): (r: Option<nat>)
    ensures r.Some? ==> FirstNamed(fields, name, r.value)
    ensures r.None? <==> forall i :: 0 <= i < |fields| ==> fields[i].name != name
  {
    if |fields| == 0 then None
    else if fields[0].name == name then Some(0)
    else match FindField(fields[1..], name)
      case None => None
      case Some(k) => assert fields[k + 1] == fields[1..][k]; Some(k + 1)
  }

  /**
   The check run on every change of one field: the error entry of `name`
   is set when the first field of that name is required and `value` is
   empty, and removed otherwise (also when no field has that name); the
   other error entries are kept.
   */
  function ValidateField(fields: seq<Field>, errors: map<string, string>, name: string, value: string)
    : (r: map<string, string>)
    ensures forall k :: k != name ==> (k in r <==> k in errors)
    ensures forall k :: k != name && k in r ==> r[k] == errors[k]
    ensures name in r <==> value == "" && exists i :: FirstNamed(fields, name, i) && fields[i].required
    ensures forall i :: FirstNamed(fields, name, i) && name in r ==> r[name] == RequiredMessage(fields[i].caption)
  {
    match FindField(fields, name)
    case Some(i) =>
      if fields[i].required && value == "" then errors[name := RequiredMessage(fields[i].caption)]
      else errors - {name}
    case None => errors - {name}
  }

  /**
   The check run at submit: one entry per empty required field, visiting
   the fields in order so that a later field of the same name overwrites
   an earlier one.
   */
  function ValidateAll(fields: seq<Field>, data: Values): (r: map<string, string>)
    ensures r.Keys == MissingNames(fields, data)
    decreases |fields|
  {
    if |fields| == 0 then map[]
    else
      var init := fields[..|fields| - 1];
      var f := fields[|fields| - 1];
      var prior := ValidateAll(init, data);
      MissingNamesSnoc(fields, data);
      if Missing(f, data) then prior[f.name := RequiredMessage(f.caption)] else prior
  }

  /** In a schema with distinct names, each empty required field gets the
      message built from its own caption. */
  lemma {:induction false} ValidateAllMessages(fields: seq<Field>, data: Values, i: int)
    requires DistinctNames(fields)
    requires 0 <= i < |fields| && Missing(fields[i], data)
    ensures fields[i].name in ValidateAll(fields, data)
    ensures ValidateAll(fields, data)[fields[i].name] == RequiredMessage(fields[i].caption)
    decreases |fields|
  {
    assert fields[i].name in MissingNames(fields, data);
    var init := fields[..|fields| - 1];
    var f := fields[|fields| - 1];
    if i < |fields| - 1 {
      assert init[i] == fields[i];
      assert DistinctNames(init);
      ValidateAllMessages(init, data, i);
      assert fields[i].name != f.name;
    }
  }

  /** The submit-time check finds nothing exactly when every required field is filled. */
  lemma ValidateAllEmptyIff(fields: seq<Field>, data: Values)
    ensures ValidateAll(fields, data) == map[] <==> AllRequiredFilled(fields, data)
  {
    var r := ValidateAll(fields, data);
    if !AllRequiredFilled(fields, data) {
      var i :| 0 <= i < |fields| && Missing(fields[i], data);
      assert fields[i].name in r;
    }
  }

  lemma MissingNamesSnoc(fields: seq<Field>, data: Values)
    requires |fields| > 0
    ensures var f := fields[|fields| - 1];
      MissingNames(fields, data) == MissingNames(fields[..|fields| - 1], data) + (if Missing(f, data) then {f.name} else {})
  {
    var init := fields[..|fields| - 1];
    assert forall i :: 0 <= i < |init| ==> init[i] == fields[i];
  }

  lemma AllRequiredFilledSnoc(fields: seq<Field>, data: Values)
    requires |fields| > 0
    ensures AllRequiredFilled(fields, data)
      <==> AllRequiredFilled(fields[..|fields| - 1], data) && !Missing(fields[|fields| - 1], data)
  {
    var init := fields[..|fields| - 1];
    assert forall i :: 0 <= i < |init| ==> init[i] == fields[i];
  }

  /** Positions of the required fields. */
  function RequiredPositions(fields: seq<Field>): set<int> {
    set i | 0 <= i < |fields| && fields[i].required
  }

  /** Positions of the required fields that hold a value. */
  function FilledPositions(fields: seq<Field>, data: Values): set<int> {
    set i | 0 <= i < |fields| && fields[i].required && Filled(data, fields[i].name)
  }

  lemma PositionsSnoc(fields: seq<Field>, data: Values)
    requires |fields| > 0
    ensures var n := |fields| - 1;
      && RequiredPositions(fields) == RequiredPositions(fields[..n]) + (if fields[n].required then {n} else {})
      && FilledPositions(fields, data)
         == FilledPositions(fields[..n], data) + (if fields[n].required && Filled(data, fields[n].name) then {n} else {})
      && n !in RequiredPositions(fields[..n]) && n !in FilledPositions(fields[..n], data)
  {
    var init := fields[..|fields| - 1];
    assert forall i :: 0 <= i < |init| ==> init[i] == fields[i];
  }

  /** Number of required fields: the length of the list of fields filtered by
      their required flag, each field counted once per occurrence. */
  function RequiredCount(fields: seq<Field>): (n: nat)
    ensures n == |RequiredPositions(fields)|
    ensures n > 0 <==> HasRequired(fields)
  {
    if |fields| == 0 then 0
    else
      var last := |fields| - 1;
      PositionsSnoc(fields, map[]);
      assert HasRequired(fields) <==> HasRequired(fields[..last]) || fields[last].required by {
        assert forall i :: 0 <= i < last ==> fields[..last][i] == fields[i];
      }
      RequiredCount(fields[..last]) + (if fields[last].required then 1 else 0)
  }

  /** Number of required fields that hold a value, counted the same way. */
  function CompletedCount(fields: seq<Field>, data: Values): (n: nat)
    ensures n == |FilledPositions(fields, data)|
    ensures n <= RequiredCount(fields)
    ensures n == RequiredCount(fields) <==> AllRequiredFilled(fields, data)
  {
    if |fields| == 0 then 0
    else
      var last := |fields| - 1;
      PositionsSnoc(fields, data);
      AllRequiredFilledSnoc(fields, data);
      CompletedCount(fields[..last], data) + (if fields[last].required && Filled(data, fields[last].name) then 1 else 0)
  }

  /** Progress as the page keeps it: the number `0` after a reset, or the
      two counts whose quotient times 100 is the percentage. */
  datatype Progress = Cleared | Counts(completed: nat, total: nat)

  /** The progress the change handler computes for the buffer `data`. */
  function ProgressOf(fields: seq<Field>, data: Values): (p: Progress)
    ensures p == Counts(|FilledPositions(fields, data)|, |RequiredPositions(fields)|)
    ensures p.completed <= p.total
    ensures p.completed == p.total <==> AllRequiredFilled(fields, data)
    ensures p.total == 0 <==> !HasRequired(fields)
  {
    Counts(CompletedCount(fields, data), RequiredCount(fields))
  }

  /** The percentage shown in the bar; `None` is the `NaN` that `0 / 0` yields. */
  function Percent(p: Progress): (r: Option<real>)
    requires p.Counts? ==> p.completed <= p.total
    ensures p.Cleared? ==> r == Some(0.0)
    ensures r.None? <==> p.Counts? && p.total == 0
    ensures p.Counts? && p.total > 0 ==> r.Some? && r.value * (p.total as real) == 100.0 * (p.completed as real)
    ensures p.Counts? && r.Some? ==> 0.0 <= r.value <= 100.0
    ensures p.Counts? && r.Some? ==> (r.value == 100.0 <==> p.completed == p.total)
  {
    match p
    case Cleared => Some(0.0)
    case Counts(c, t) =>
      if t == 0 then None
      else
        QuotientBounds(c, t);
        Some((c as real / t as real) * 100.0)
  }

  lemma MulSubRight(a: real, b: real, x: real)
    ensures (a - b) * x == a * x - b * x
  {
  }

  lemma NonNegativeFactor(a: real, x: real)
    requires x > 0.0 && a * x >= 0.0
    ensures a >= 0.0
  {
  }

  /** The quotient of a count by a larger positive count lies in [0, 1],
      and is 1 exactly when the two are equal. */
  lemma QuotientBounds(c: nat, t: nat)
    requires 0 < t && c <= t
    ensures (c as real / t as real) * (t as real) == c as real
    ensures 0.0 <= c as real / t as real <= 1.0
    ensures c as real / t as real == 1.0 <==> c == t
  {
    var tr, cr := t as real, c as real;
    var q := cr / tr;
    assert q * tr == cr;
    NonNegativeFactor(q, tr);
    MulSubRight(1.0, q, tr);
    NonNegativeFactor(1.0 - q, tr);
    MulSubRight(q, 1.0, tr);
    if c == t {
      NonNegativeFactor(q - 1.0, tr);
    }
    if q == 1.0 {
      assert cr == tr;
    }
  }

  /**
   For a schema with a required field the bar shows the number of filled
   required fields divided by the number of required fields, times 100.
   */
  lemma ProgressPercent(fields: seq<Field>, data: Values)
    requires HasRequired(fields)
    ensures Percent(ProgressOf(fields, data))
         == Some((|FilledPositions(fields, data)| as real / |RequiredPositions(fields)| as real) * 100.0)
  {
    var p := ProgressOf(fields, data);
    assert p.total > 0;
  }

  /**
   For a shipped schema the bar is never `NaN`: it is a number between 0
   and 100, and 100 exactly when every required field is filled.
   */
  lemma ShippedProgressInRange(formType: string, data: Values)
    requires formType in Configs
    ensures Percent(ProgressOf(Configs[formType], data)).Some?
    ensures 0.0 <= Percent(ProgressOf(Configs[formType], data)).value <= 100.0
    ensures Percent(ProgressOf(Configs[formType], data)).value == 100.0
            <==> AllRequiredFilled(Configs[formType], data)
  {
    ShippedSchemasWellFormed();
    var p := ProgressOf(Configs[formType], data);
    assert p.total > 0;
  }

  /**
   In a schema with distinct names the progress counts and the submit-time
   errors agree: every required field is either counted as completed or
   has an error entry, never both.
   */
  lemma CompletedPlusErrorsIsRequired(fields: seq<Field>, data: Values)
    requires DistinctNames(fields)
    ensures CompletedCount(fields, data) + |ValidateAll(fields, data)| == RequiredCount(fields)
  {
    var r := ValidateAll(fields, data);
    assert |r| == |r.Keys|;
    CompletedPlusMissing(fields, data);
  }

  lemma {:induction false} CompletedPlusMissing(fields: seq<Field>, data: Values)
    requires DistinctNames(fields)
    ensures CompletedCount(fields, data) + |MissingNames(fields, data)| == RequiredCount(fields)
  {
    if |fields| == 0 {
      assert MissingNames(fields, data) == {};
    } else {
      var init := fields[..|fields| - 1];
      var f := fields[|fields| - 1];
      assert forall i :: 0 <= i < |init| ==> init[i] == fields[i];
      assert DistinctNames(init);
      CompletedPlusMissing(init, data);
      MissingNamesSnoc(fields, data);
      assert f.name !in MissingNames(init, data);
    }
  }
}
